=== FILE: README.md ===
# PyEmission core in Dafny

A model of the per-sample driving-cycle pipeline of PyEmission, which
estimates tailpipe and well-to-wheel emissions of a gasoline vehicle with
the Vehicle Specific Power (VSP) method of the Environmental Protection
Agency. The cycle is a speed column in m/s sampled at 1 Hz. From it the
model derives, row by row:

- the acceleration (first difference of speed, 0 for the first row);
- the tractive power;
- the VSP;
- the operating mode, one of 23 codes chosen from VSP, speed and a
  three-sample acceleration history;
- the six per-second emission rates of that mode, read from a reference
  table partitioned by vehicle class.

On top of the enriched cycle it models the trip statistics (distance,
average speed, stops, idle/acceleration/deceleration shares, mean
acceleration and deceleration) and the emission metrics (tailpipe totals,
fuel burnt by carbon balance, miles per gallon, well-to-pump and
well-to-wheel CO2, per-km values).

The repository holds two copies of this logic: the packaged
`pyemission/pyemission.py` (helpers in a `Util` class) and the older
`PyEmission/pyemission.py` with `PyEmission/utility_functions.py`. They
agree line for line on everything modelled here, and the table below cites
both.

All numbers are exact Dafny `real`s; the source's decimal constants
(2.23694, 3.28084, 9.81, 0.866, 34.2, ...) appear as the same decimal
literals.

## Layout

| file | module | models |
|---|---|---|
| results.dfy | `Results` | a `Result` type for the error paths |
| units.dfy | `Units` | `mps_to_mph`, `mps2_to_mph_per_sec` |
| physics.dfy | `Physics` | `vsp_coeff`, `calculate_tractive_power`, `calculate_vsp` |
| operating_mode.dfy | `OperatingMode` | `vsp_to_op_mod`, plus an independent table-driven definition of it |
| emission_rates.dfy | `EmissionRates` | the rate table, its partitions, `op_mod_to_emission_rate` |
| series.dfy | `Series` | column sums, counts and selections (the pandas operations used) |
| kinematics.dfy | `Kinematics` | the acceleration loop and the zero-padded history lookup |
| vehicle.dfy | `Vehicle` | `Car.__init__` and `GV.__init__`: the enriched cycle |
| emissions.dfy | `Emissions` | `pump_to_wheel_*`, `fuel_burnt`, `mpg`, `well_to_*`, `*_per_km` |
| trip_stats.dfy | `TripStats` | `distance`, `average_speed`, `no_of_stops_per_km`, `idling_mode`, `acc_mode`, `dec_mode`, `acc_avg`, `dec_avg` |

## Behaviour kept as written

The model reproduces three quirks of the code rather than what the names
suggest. Each is stated as a lemma.

- In `vsp_to_op_mod`, the converted `acc_t_1` is overwritten by the
  converted `acc_t_2`. The three-sample braking test therefore compares
  the converted `acc_t_2` and the raw `acc_t_2` against -1, and the
  `acc_t_1` argument never affects the result
  (`OperatingMode.AccTMinus1Ignored`). Since the raw test implies the
  converted one, the override reduces to `OperatingMode.Braking`.
- In `vsp_coeff`, `vehicle_type == 'Passenger truck' or 'SUV'` is always
  true. Every class other than "Passenger car", the light commercial truck
  included, gets the passenger-truck coefficients, and the third set is
  never used (`Physics.LightTruckCoefficientsUnreachable`). A light
  commercial truck still reads its own rate partition
  (`Vehicle.LightCommercialTruckPairing`).
- `fuel_burnt` puts the NOx total into the hydrocarbon slot of the
  carbon balance. The HC rates never reach the fuel estimate
  (`Emissions.FuelBurntIgnoresHC`).

Two further consequences of the code are easy to misread:

- A speed of exactly 1 mph is in the 11-16 band, not idle, because idle is
  tested as `speed < 1` (pyemission/pyemission.py:444;
  `OperatingMode.SpeedBandsOfCodes`).
- A cycle standing still throughout burns the idle-mode fuel, not zero.
  Every row is in mode 1 and carries the mode-1 rates
  (`Emissions.StandingCycleRates`). A cycle with constant rates burns the
  carbon-balance fuel of its length times those rates
  (`Emissions.FuelAtConstantRates`).

## Model

| member | source | states |
|---|---|---|
| Units.MpsToMph | pyemission/pyemission.py:405-407 | Converting to mph can be undone by dividing by 2.23694, and it keeps the sign: positive in gives positive out, zero gives zero. |
| Units.Mps2ToMphPerSec | pyemission/pyemission.py:410-412 | Accelerations are converted with the same scaling as speeds. |
| Units.ConversionPreservesOrder | PyEmission/utility_functions.py:35-42 | Both conversions are strictly increasing, so comparisons before and after conversion agree. |
| Physics.VspCoeff | pyemission/pyemission.py:517-535 | "Passenger car" gets the passenger-car set, and only that class does. Every other string gets the passenger-truck set. All four coefficients are positive. |
| Physics.LightTruckCoefficientsUnreachable | PyEmission/utility_functions.py:147-165 | No input reaches the third coefficient set. "Light commercial truck" gets the passenger-truck set, and "SUV" gets the same set as "Passenger truck". |
| Physics.TractivePower | pyemission/pyemission.py:419-423 | Tractive power is 0 at zero speed, whatever the acceleration. |
| Physics.TractivePowerAccelerationTerm | PyEmission/utility_functions.py:49-53 | Changing only the acceleration changes power by mass x delta-a x v. At positive speed and mass, power strictly increases with acceleration. |
| Physics.Vsp | pyemission/pyemission.py:427-431 | VSP is 0 at zero speed, whatever the acceleration. |
| Physics.VspPositiveWhenNotDecelerating | PyEmission/utility_functions.py:57-61 | With positive coefficients and mass, VSP is positive when moving forward with non-negative acceleration. |
| OperatingMode.OpMode | pyemission/pyemission.py:435-493 | The classifier is total and always returns one of the 23 codes {0, 1, 11-16, 21-25, 27-30, 33, 35, 37-40}. |
| OperatingMode.ClassifierMatchesBinTables | PyEmission/utility_functions.py:65-123 | Mode 0 occurs exactly when braking. Mode 1 occurs exactly when not braking and under 1 mph. Otherwise the code is the one of the half-open VSP bin [lo, hi), in the speed band's table, that contains the VSP. |
| OperatingMode.BinTablesPartition | pyemission/pyemission.py:447-491 | Each band's VSP bins cover the whole real line without gaps: unbounded at both ends, each bin starting where the previous one ends. |
| OperatingMode.AccTMinus1Ignored | PyEmission/utility_functions.py:68-72 | The result never depends on the acc_t_1 argument. |
| OperatingMode.HardBrakingOverrides | pyemission/pyemission.py:438-443 | An acceleration of at most -2 mph/s gives mode 0, whatever the speed, VSP and history. |
| OperatingMode.SpeedBandsOfCodes | pyemission/pyemission.py:444-491 | Codes 11-16 occur exactly for non-braking rows at 1-25 mph (25 included). Codes 21-30 occur exactly for 25-50 mph (50 included). Codes 33-40 occur exactly above 50 mph. |
| OperatingMode.LowerBoundsSelectTheirBin | PyEmission/utility_functions.py:77-121 | A VSP equal to a bin's lower bound (0, 3, 6, 9, 12, 18, 24, 30) falls in the bin that starts at that bound. |
| OperatingMode.StandingStillIsIdle | pyemission/pyemission.py:442-445 | Zero speed with zero current and two-back acceleration gives mode 1, whatever the VSP and the acc_t_1 argument. |
| OperatingMode.EveryModeReachable | pyemission/pyemission.py:442-491 | Each of the 23 codes is returned for some input, so none is dead. |
| EmissionRates.LookupRates | pyemission/pyemission.py:286-291 | The six lookups succeed exactly when the table has all six pollutants for the mode. On success each rate is the table's entry. On failure the error names the mode and a missing pollutant. |
| Kinematics.Accelerations | pyemission/pyemission.py:80-90 | The acceleration column is as long as the speed column. Its first element is 0, and element i is speed[i] - speed[i-1]. |
| Kinematics.AccelerationColumn | PyEmission/pyemission.py:67-77 | The loop that carries the previous speed in v_0 computes exactly that acceleration column. |
| Kinematics.SpeedFromAccelerations | pyemission/pyemission.py:80-90 | Accelerations invert back to speeds: speed[i] is speed[0] plus the accelerations up to i. |
| Vehicle.SampleAt | pyemission/pyemission.py:266-301 | A row is built exactly when the table has every pollutant for the row's mode. |
| Vehicle.SamplesFrom | PyEmission/pyemission.py:253-293 | The row loop succeeds exactly when every row's mode is in the table, and then yields one row per sample. Otherwise it fails at the first row whose mode is missing, and all earlier rows were covered. |
| Vehicle.Build | pyemission/pyemission.py:50-114 | An empty cycle is an error, and only an empty cycle gives that error. A built vehicle satisfies the row invariant: per-row acceleration, power, VSP, mode and rates, computed from the given configuration and the VSP coefficients of the given class, with the speeds as given. The vehicle keeps that configuration and class. The light-commercial-truck partition is selected for that class and the other partition otherwise. Any other error is a missing rate, at a row whose mode the selected partition really does not cover. Construction of a non-empty cycle succeeds whenever the partition covers every row's mode. |
| Vehicle.CompleteTableBuilds | pyemission/pyemission.py:284-291 | With all 23 modes present in the selected partition, construction fails only on an empty cycle. |
| Vehicle.SameModeSameRates | PyEmission/pyemission.py:271-288 | Two rows with the same mode carry the same six rates. |
| Vehicle.RowsAreCausal | pyemission/pyemission.py:266-284 | Row i depends only on the first i+1 speeds. |
| Vehicle.FirstRowNeverBraking | pyemission/pyemission.py:276-284 | The first row has acceleration 0, and with the zero-padded history it is never in mode 0. |
| Vehicle.HardBrakingRowIsModeZero | PyEmission/pyemission.py:258-271 | A row whose acceleration is at most -2 mph/s is in mode 0. |
| Vehicle.LightCommercialTruckPairing | PyEmission/pyemission.py:32-44 | A light commercial truck uses rate partition 0 but the passenger-truck VSP coefficients. |
| Vehicle.StandingCycleIsIdle | pyemission/pyemission.py:442-445 | When every speed is 0, every row is in mode 1. |
| Vehicle.LaunchRowAccelerates | pyemission/pyemission.py:460-478 | For speeds [0, 20] and positive mass, the second row has acceleration 20, is not braking, and is in modes 22-30. |
| Vehicle.StoredAccelerations | PyEmission/pyemission.py:67-77 | Each row's stored acceleration is the first difference of the stored speeds at that row, 0 for the first row. |
| EmissionRates.SelectTable | pyemission/pyemission.py:50-54 | The exact class name "Light commercial truck" reads partition 0. Every other string reads partition 1, known class or not, and never fails. |
| Kinematics.LookbackReadsPaddedColumn | pyemission/pyemission.py:276-283 | Looking back k rows from row i reads the acceleration column padded with k leading zeros at position i. Rows before the start read 0. |
| Emissions.PumpToWheel | pyemission/pyemission.py:311-325 | A pollutant's cycle total is non-negative when every row's rate is. |
| Emissions.PumpToWheelAtConstantRate | pyemission/pyemission.py:311-325 | A cycle of n rows at a constant rate r totals n x r. |
| Emissions.PumpToWheelByOccupancy | pyemission/pyemission.py:311-325 | A pollutant's cycle total, summed row by row, equals the sum over the 23 modes of (rows in that mode) x (the mode's table rate). The weight is written as a repeated sum, which `Emissions.WeightedIsProduct` shows is that product. |
| Emissions.VehicleTotalsByOccupancy | PyEmission/pyemission.py:298-312 | For a built vehicle, every pollutant's total has that same occupancy form. |
| Emissions.CarbonBalanceFuel | pyemission/pyemission.py:344-351 | The fuel's carbon (volume x 750 g/l x 0.866 / 1000) equals the exhaust carbon 0.866 x hydrocarbon slot + 0.429 x CO + 0.273 x CO2. Fuel is non-negative for non-negative totals and zero when all three are zero. |
| Emissions.FuelBurnt | pyemission/pyemission.py:344-351 | The fuel's carbon (volume x 750 x 0.866 / 1000) equals 0.866 x the NOx total + 0.429 x the CO total + 0.273 x the CO2 total. Fuel is non-negative when every rate is. |
| Emissions.CarbonBalanceScales | pyemission/pyemission.py:350 | The carbon balance is linear: n times each total burns n times the fuel. |
| Emissions.FuelBurntIgnoresHC | PyEmission/pyemission.py:331-338 | Cycles that differ only in HC rates burn the same fuel, because the hydrocarbon slot is fed NOx. |
| Emissions.Mpg | pyemission/pyemission.py:353-356 | The vehicle's mpg x the gallons it burns = the miles its cycle covers. It is positive when both the distance and the fuel are. |
| Emissions.PerKm | pyemission/pyemission.py:327-341 | The vehicle's per-km value of a pollutant x its distance = its cycle total. It is non-negative for non-negative rates and a positive distance. |
| Emissions.WellToWheelPerKm | pyemission/pyemission.py:368-370 | Well-to-wheel CO2 per km x the distance = the well-to-wheel CO2. It is the tailpipe CO2 per km plus the upstream CO2 per km. |
| Emissions.WellToPumpCO2 | pyemission/pyemission.py:359-362 | Upstream CO2 is computed at the vehicle's own well-to-tank factor. It is 0 when that factor is zero. It is non-negative with a non-negative factor and non-negative rates. |
| Emissions.WellToWheelCO2 | pyemission/pyemission.py:364-366 | Well-to-wheel CO2 uses the vehicle's own well-to-tank factor. It equals the tailpipe CO2 with a zero factor. With a non-negative factor and non-negative rates it is never below the tailpipe CO2. |
| Emissions.WellToWheelFromTotals | PyEmission/pyemission.py:346-353 | Well-to-wheel CO2 is tailpipe CO2 plus (0.866 x NOx + 0.429 x CO + 0.273 x CO2 totals) x 34.2 MJ/l x the vehicle's well-to-tank factor / (750 x 0.866). It depends on the cycle only through those three totals. |
| Emissions.StandingCycleRates | pyemission/pyemission.py:442-445 | When every speed is 0, every row carries the table's mode-1 rates, and the table has mode 1. |
| Emissions.FuelAtConstantRates | pyemission/pyemission.py:344-351 | A cycle whose rows all emit the same NOx, CO and CO2 rates burns the carbon-balance fuel of the row count times those rates. |
| TripStats.Distance | pyemission/pyemission.py:70 | Distance is non-negative when every speed is. |
| TripStats.DistanceAtConstantSpeed | pyemission/pyemission.py:119-122 | n samples at v m/s cover n x v metres. |
| TripStats.DistanceScales | pyemission/pyemission.py:70 | Scaling every speed by k scales the distance by k. |
| TripStats.AverageSpeed | pyemission/pyemission.py:126-127 | Average speed is the mean sample speed in km/h (3.6 x mean m/s). |
| TripStats.RunStops | pyemission/pyemission.py:130-139 | Over n samples, twice the stops plus the armed flag grows by at most n. Samples that never reach 15 ft/s add at most the one stop an already-armed detector can count. |
| TripStats.StopCountBounds | PyEmission/pyemission.py:117-127 | A cycle has at most half as many stops as samples. If no sample reaches 15 ft/s it has none. |
| TripStats.StopCountedOnlyWhenArmedAndSlow | PyEmission/pyemission.py:121-126 | Each sample raises the count by 0 or 1. It raises it exactly when the detector was armed and the speed is below 10 ft/s. |
| TripStats.NoOfStops | pyemission/pyemission.py:131-139 | The counting loop with its flag computes the stop count, which is at most half the sample count. |
| TripStats.StopsPerKm | pyemission/pyemission.py:140 | Stops per km x distance = the stop count. |
| TripStats.IdlingPercent | pyemission/pyemission.py:143-148 | The idle share is in [0, 100]. It is 100 exactly when every speed is at most 0.1 m/s, and 0 exactly when none is. |
| TripStats.AccModePercent | pyemission/pyemission.py:159-160 | The accelerating share is in [0, 100]. It is 100 exactly when every acceleration is positive, and 0 exactly when none is. |
| TripStats.DecModePercent | pyemission/pyemission.py:163-164 | The decelerating share is in [0, 100]. It is 100 exactly when every acceleration is negative, and 0 exactly when none is. |
| TripStats.AccDecSharesBelowWhole | pyemission/pyemission.py:159-164 | Accelerating and decelerating samples together number at most t - 1, because the first acceleration is 0. Their shares sum to less than 100. |
| TripStats.AccAvg | pyemission/pyemission.py:151-152 | The value is the sum of the accelerations with every non-positive one zeroed, over the number of positive ones: their mean. It is positive. It lies between the smallest and the largest positive acceleration. |
| TripStats.DecAvg | pyemission/pyemission.py:155-156 | The value is the sum of the accelerations with every non-negative one zeroed, over the number of negative ones: their mean. It is negative. It lies between the strongest and the weakest deceleration. |
| TripStats.SteadyCycle | pyemission/pyemission.py:119-164 | Ten samples at 10 m/s give 0% accelerating, 0% decelerating, 0.1 km and 36 km/h. |

## Left out

- Reading the Excel sheet and the speed-unit dictionary: file I/O. The core starts from a speed column already in m/s.
- The time column: nothing in the core reads it. The 1 Hz sampling is built into the distance and average-speed formulas, as in the code.
- Loading and locating `db.pkl`: the reference table is an opaque binary asset. Here it is an arbitrary map from (mode, pollutant) to rate, in two partitions.
- Plotting, the progress bar, console output, the `__main__` blocks, the example script and packaging: presentation only.
- `round(..., 3)` at every query method: every metric is modelled unrounded. `fuel_burnt` and `well_to_*` therefore use unrounded totals, where the code rounds them before combining.
- `speed_std`: it needs a square root and pandas' standard-deviation semantics.
- Floating-point behaviour: NaN and infinity, and the classifier's handling of a NaN VSP (it would fall to the last branch of each chain). The model uses exact reals.
- Division by zero: a zero distance or zero fuel is a numpy float and gives infinity or NaN in the code. `TripStats.StopsPerKm`, `Emissions.PerKm`, `Emissions.WellToWheelPerKm` and `Emissions.Mpg` require a non-zero divisor.
- An empty cycle: the code cannot construct a vehicle from one, because the constructor reads `df.vehicle_type[0]` (pyemission/pyemission.py:36, PyEmission/pyemission.py:31). `Vehicle.Build` returns an error for it. `TripStats.AverageSpeed` and the share functions therefore require a non-empty cycle; on an integer sample count of 0, `idling_mode` would raise ZeroDivisionError.
- `TripStats.AccAvg` and `TripStats.DecAvg` require at least one selected sample, because pandas gives NaN for the mean of an empty selection.
- The constructor's default argument values (mass, frontal area, rolling resistance, air density, drag coefficient, well-to-tank factor): every configuration value is a parameter of the model.
- The older copy's `try`/`except` around the table load: on failure it prints a message and later fails on an unbound name. This is I/O failure handling.
- `energy_kj_to_ml`, `joule_to_kwh` and `convert_to_overall_mpg`: nothing in the core calls them.

=== FILE: emission_rates.dfy ===
/** The emission-rate reference table: average rates in grams per second
    by (operating mode, pollutant), in two partitions by vehicle class. The
    table itself is a binary asset; here it is an arbitrary finite map. */
module EmissionRates {
  import opened Results
  import opened OperatingMode

  /** The six tracked pollutants, in the order the code looks them up. */
  datatype Pollutant = CO2 | CO | NOx | HC | PM25ElementalCarbon | PM25OrganicCarbon

  /** The per-sample rates of all six pollutants, in g/s. */
  datatype Rates = Rates(co2: real, co: real, nox: real, hc: real,
                         pm25Elemental: real, pm25Organic: real)

  function RateOf(r: Rates, p: Pollutant): real {
    match p
    case CO2 => r.co2
    case CO => r.co
    case NOx => r.nox
    case HC => r.hc
    case PM25ElementalCarbon => r.pm25Elemental
    case PM25OrganicCarbon => r.pm25Organic
  }

  /** One partition of the reference table. */
  type RateTable = map<(int, Pollutant), real>

  /** The pickled reference data: partition 0 for light commercial trucks,
      partition 1 for every other vehicle class. */
  datatype RateDb = RateDb(lightCommercialTruck: RateTable, otherVehicles: RateTable)

  /** The table lookup raises on a missing (mode, pollutant) entry. */
  datatype LookupError = MissingRate(mode: int, pollutant: Pollutant)

  /** The table has every pollutant for `mode`. */
  predicate Covers(table: RateTable, mode: int) {
    forall p: Pollutant :: (mode, p) in table
  }

  /** The table has every pollutant for every code the classifier can return. */
  predicate Complete(table: RateTable) {
    forall m :: m in ModeCodes ==> Covers(table, m)
  }

  /** The partition the vehicle class selects: only the exact class name
      "Light commercial truck" reads partition 0; every other string,
      known class or not, reads partition 1 without an error. */
  function SelectTable(db: RateDb, vehicle: string): (t: RateTable)
    ensures vehicle == "Light commercial truck" ==> t == db.lightCommercialTruck
    ensures vehicle != "Light commercial truck" ==> t == db.otherVehicles
  {
    if vehicle == "Light commercial truck" then db.lightCommercialTruck else db.otherVehicles
  }

  /** The six lookups of one sample, in the code's order; the first
      missing entry is the error. */
  function LookupRates(table: RateTable, mode: int): (r: Result<Rates, LookupError>)
    ensures r.Ok? <==> Covers(table, mode)
    ensures r.Ok? ==> forall p: Pollutant :: RateOf(r.value, p) == table[(mode, p)]
    ensures r.Err? ==> r.error.mode == mode && (mode, r.error.pollutant) !in table
  {
    if (mode, CO2) !in table then Err(MissingRate(mode, CO2))
    else if (mode, CO) !in table then Err(MissingRate(mode, CO))
    else if (mode, NOx) !in table then Err(MissingRate(mode, NOx))
    else if (mode, HC) !in table then Err(MissingRate(mode, HC))
    else if (mode, PM25ElementalCarbon) !in table then Err(MissingRate(mode, PM25ElementalCarbon))
    else if (mode, PM25OrganicCarbon) !in table then Err(MissingRate(mode, PM25OrganicCarbon))
    else
      CoveredByEachPollutant(table, mode);
      Ok(Rates(table[(mode, CO2)], table[(mode, CO)], table[(mode, NOx)], table[(mode, HC)],
               table[(mode, PM25ElementalCarbon)], table[(mode, PM25OrganicCarbon)]))
  }

  lemma CoveredByEachPollutant(table: RateTable, mode: int)
    requires (mode, CO2) in table && (mode, CO) in table && (mode, NOx) in table && (mode, HC) in table
    requires (mode, PM25ElementalCarbon) in table && (mode, PM25OrganicCarbon) in table
    ensures Covers(table, mode)
  {
    forall p: Pollutant
      ensures (mode, p) in table
    {
      match p
      case CO2 =>
      case CO =>
      case NOx =>
      case HC =>
      case PM25ElementalCarbon =>
      case PM25OrganicCarbon =>
    }
  }
}

=== FILE: emissions.dfy ===
/** Cycle emission totals and the metrics derived from them: fuel burnt by
    carbon balance, miles per gallon, well-to-pump and well-to-wheel CO2. */
module Emissions {
  import opened Series
  import opened OperatingMode
  import opened EmissionRates
  import opened Vehicle
  import TripStats

  /** The column of per-sample rates of pollutant `p`. */
  function RateColumn(samples: seq<Sample>, p: Pollutant): (col: seq<real>)
    ensures |col| == |samples|
    ensures forall i :: 0 <= i < |samples| ==> col[i] == RateOf(samples[i].rates, p)
  {
    if |samples| == 0 then [] else [RateOf(samples[0].rates, p)] + RateColumn(samples[1..], p)
  }

  /** `pump_to_wheel_<p>`: the cycle total of pollutant `p` in grams; it is
      non-negative for non-negative rates. */
  function PumpToWheel(samples: seq<Sample>, p: Pollutant): (total: real)
    ensures (forall i :: 0 <= i < |samples| ==> RateOf(samples[i].rates, p) >= 0.0) ==> total >= 0.0
  {
    SumNonNegative(RateColumn(samples, p));
    Sum(RateColumn(samples, p))
  }

  /** A cycle emitting `rate` grams per second throughout totals
      |samples| * rate. */
  lemma PumpToWheelAtConstantRate(samples: seq<Sample>, p: Pollutant, rate: real)
    requires forall i :: 0 <= i < |samples| ==> RateOf(samples[i].rates, p) == rate
    ensures PumpToWheel(samples, p) == (|samples| as real) * rate
  {
    SumConstant(RateColumn(samples, p), rate);
  }

  // ---------------------------------------------------------------------
  // An independent account of the totals: mode occupancy times rate.
  // ---------------------------------------------------------------------

  /** The 23 mode codes as a list. */
  const ModeList: seq<int> :=
    [0, 1, 11, 12, 13, 14, 15, 16, 21, 22, 23, 24, 25, 27, 28, 29, 30, 33, 35, 37, 38, 39, 40]

  /** The list holds each code once. */
  lemma ModeListDistinct()
    ensures forall i, j :: 0 <= i < j < |ModeList| ==> ModeList[i] != ModeList[j]
  {
    assert forall i :: 0 <= i < |ModeList| - 1 ==> ModeList[i] < ModeList[i + 1];
    AdjacentIncreasingIsDistinct(ModeList);
  }

  /** Every classifier code is on the list. */
  lemma CodeListed(m: int)
    requires m in ModeCodes
    ensures m in ModeList
  {
  }

  lemma {:induction false} AdjacentIncreasingIsDistinct(s: seq<int>)
    requires forall i :: 0 <= i < |s| - 1 ==> s[i] < s[i + 1]
    ensures forall i, j :: 0 <= i < j < |s| ==> s[i] < s[j]
  {
    if |s| > 1 {
      AdjacentIncreasingIsDistinct(s[1..]);
      forall i, j | 0 <= i < j < |s|
        ensures s[i] < s[j]
      {
        if i > 0 {
          assert s[i] == s[1..][i - 1] && s[j] == s[1..][j - 1];
        } else if j > 1 {
          assert s[1] == s[1..][0] && s[j] == s[1..][j - 1];
        }
      }
    }
  }

  /** The number of samples in mode `m`. */
  function ModeCount(samples: seq<Sample>, m: int): nat {
    if |samples| == 0 then 0 else (if samples[0].mode == m then 1 else 0) + ModeCount(samples[1..], m)
  }

  /** The table rate of (m, p), or 0 when the table has none. */
  function TableRate(table: RateTable, m: int, p: Pollutant): real {
    if (m, p) in table then table[(m, p)] else 0.0
  }

  /** `n` copies of `rate` added up, that is n x rate (`WeightedIsProduct`). */
  function Weighted(n: nat, rate: real): real {
    if n == 0 then 0.0 else rate + Weighted(n - 1, rate)
  }

  lemma {:induction false} WeightedIsProduct(n: nat, rate: real)
    ensures Weighted(n, rate) == (n as real) * rate
  {
    if n > 0 {
      WeightedIsProduct(n - 1, rate);
    }
  }

  /** Sum over the listed codes of (samples in that mode) x (its rate). */
  function OccupancyTotal(samples: seq<Sample>, codes: seq<int>, table: RateTable, p: Pollutant): real {
    if |codes| == 0 then 0.0
    else Weighted(ModeCount(samples, codes[0]), TableRate(table, codes[0], p))
         + OccupancyTotal(samples, codes[1..], table, p)
  }

  /** Every sample carries the table's rates for its mode, a listed code. */
  ghost predicate RatesFromTable(samples: seq<Sample>, table: RateTable) {
    forall i :: 0 <= i < |samples| ==>
      && samples[i].mode in ModeCodes
      && Covers(table, samples[i].mode)
      && (forall p: Pollutant :: RateOf(samples[i].rates, p) == table[(samples[i].mode, p)])
  }

  lemma {:induction false} OccupancyTotalPeel(samples: seq<Sample>, codes: seq<int>, table: RateTable, p: Pollutant)
    requires |samples| > 0
    requires forall i, j :: 0 <= i < j < |codes| ==> codes[i] != codes[j]
    ensures OccupancyTotal(samples, codes, table, p)
            == (if samples[0].mode in codes then TableRate(table, samples[0].mode, p) else 0.0)
               + OccupancyTotal(samples[1..], codes, table, p)
  {
    if |codes| > 0 {
      DistinctTail(codes);
      OccupancyTotalPeel(samples, codes[1..], table, p);
      if samples[0].mode == codes[0] {
        PeelListedHead(samples, codes, table, p);
      } else {
        PeelOtherHead(samples, codes, table, p);
      }
    }
  }

  /** The peel step when the first sample's mode is the first code. */
  lemma PeelListedHead(samples: seq<Sample>, codes: seq<int>, table: RateTable, p: Pollutant)
    requires |samples| > 0 && |codes| > 0 && samples[0].mode == codes[0]
    requires OccupancyTotal(samples, codes[1..], table, p) == OccupancyTotal(samples[1..], codes[1..], table, p)
    ensures OccupancyTotal(samples, codes, table, p)
            == TableRate(table, codes[0], p) + OccupancyTotal(samples[1..], codes, table, p)
  {
    assert ModeCount(samples, codes[0]) == 1 + ModeCount(samples[1..], codes[0]);
  }

  /** The peel step when the first sample's mode is not the first code. */
  lemma PeelOtherHead(samples: seq<Sample>, codes: seq<int>, table: RateTable, p: Pollutant)
    requires |samples| > 0 && |codes| > 0 && samples[0].mode != codes[0]
    ensures OccupancyTotal(samples, codes, table, p) - OccupancyTotal(samples, codes[1..], table, p)
            == OccupancyTotal(samples[1..], codes, table, p) - OccupancyTotal(samples[1..], codes[1..], table, p)
  {
    assert ModeCount(samples, codes[0]) == ModeCount(samples[1..], codes[0]);
  }

  lemma DistinctTail(codes: seq<int>)
    requires |codes| > 0
    requires forall i, j :: 0 <= i < j < |codes| ==> codes[i] != codes[j]
    ensures forall i, j :: 0 <= i < j < |codes[1..]| ==> codes[1..][i] != codes[1..][j]
    ensures codes[0] !in codes[1..]
  {
    forall i, j | 0 <= i < j < |codes[1..]|
      ensures codes[1..][i] != codes[1..][j]
    {
      assert codes[1..][i] == codes[i + 1] && codes[1..][j] == codes[j + 1];
    }
    forall j | 0 <= j < |codes[1..]|
      ensures codes[1..][j] != codes[0]
    {
      assert codes[1..][j] == codes[j + 1];
    }
  }

  lemma {:induction false} OccupancyTotalOfNoSamples(codes: seq<int>, table: RateTable, p: Pollutant)
    ensures OccupancyTotal([], codes, table, p) == 0.0
  {
    if |codes| > 0 {
      OccupancyTotalOfNoSamples(codes[1..], table, p);
    }
  }

  lemma RatesFromTableTail(samples: seq<Sample>, table: RateTable)
    requires |samples| > 0 && RatesFromTable(samples, table)
    ensures RatesFromTable(samples[1..], table)
    ensures samples[0].mode in ModeList
    ensures forall p: Pollutant :: RateOf(samples[0].rates, p) == TableRate(table, samples[0].mode, p)
  {
    assert forall i :: 0 <= i < |samples[1..]| ==> samples[1..][i] == samples[i + 1];
    CodeListed(samples[0].mode);
  }

  /** The cycle total of a pollutant equals the occupancy-weighted sum of
      the table's rates over the 23 modes. */
  lemma {:induction false} PumpToWheelByOccupancy(samples: seq<Sample>, table: RateTable, p: Pollutant)
    requires RatesFromTable(samples, table)
    ensures PumpToWheel(samples, p) == OccupancyTotal(samples, ModeList, table, p)
  {
    if |samples| == 0 {
      OccupancyTotalOfNoSamples(ModeList, table, p);
    } else {
      RatesFromTableTail(samples, table);
      PumpToWheelByOccupancy(samples[1..], table, p);
      ModeListDistinct();
      OccupancyTotalPeel(samples, ModeList, table, p);
      assert RateColumn(samples, p)[1..] == RateColumn(samples[1..], p);
    }
  }

  // ---------------------------------------------------------------------
  // Derived metrics.
  // ---------------------------------------------------------------------

  /** Gasoline density in g/l and its carbon mass fraction. */
  const GasolineDensity: real := 750.0
  const CarbonFraction: real := 0.866

  /** Fuel volume in ml whose carbon equals the carbon in the exhaust:
      0.866 of the hydrocarbon mass, 0.429 of the CO mass and 0.273 of the
      CO2 mass are carbon. */
  function CarbonBalanceFuel(hcSlot: real, co: real, co2: real): (ml: real)
    ensures ml * (GasolineDensity * CarbonFraction) / 1000.0 == 0.866 * hcSlot + 0.429 * co + 0.273 * co2
    ensures hcSlot >= 0.0 && co >= 0.0 && co2 >= 0.0 ==> ml >= 0.0
    ensures hcSlot == 0.0 && co == 0.0 && co2 == 0.0 ==> ml == 0.0
  {
    (0.866 * hcSlot + 0.429 * co + 0.273 * co2) * 1000.0 / (GasolineDensity * CarbonFraction)
  }

  /** `fuel_burnt` in ml. As written, the hydrocarbon slot of the carbon
      balance is fed the NOx total, not the HC total. */
  function FuelBurnt(samples: seq<Sample>): (ml: real)
    ensures ml * (GasolineDensity * CarbonFraction) / 1000.0
            == 0.866 * PumpToWheel(samples, NOx) + 0.429 * PumpToWheel(samples, CO)
               + 0.273 * PumpToWheel(samples, CO2)
    ensures NonNegativeRates(samples) ==> ml >= 0.0
  {
    CarbonBalanceFuel(PumpToWheel(samples, NOx), PumpToWheel(samples, CO), PumpToWheel(samples, CO2))
  }

  /** Gasoline energy density in MJ/l. */
  const EnergyDensity: real := 34.2

  /** `well_to_pump_CO2` in grams: the upstream CO2 of producing the fuel
      burnt, at the vehicle's well-to-tank factor in g/MJ. It vanishes with
      a zero factor and is non-negative for non-negative rates and factor. */
  function WellToPumpCO2(g: Gasoline): (grams: real)
    ensures g.config.wellToTankFactor == 0.0 ==> grams == 0.0
    ensures g.config.wellToTankFactor >= 0.0 && NonNegativeRates(g.samples) ==> grams >= 0.0
  {
    FuelBurnt(g.samples) * EnergyDensity * g.config.wellToTankFactor / 1000.0
  }

  /** `well_to_wheel_CO2` in grams: tailpipe plus upstream CO2. It is never
      below the tailpipe CO2 for non-negative rates and factor, and equals
      it with a zero factor. */
  function WellToWheelCO2(g: Gasoline): (grams: real)
    ensures g.config.wellToTankFactor >= 0.0 && NonNegativeRates(g.samples)
            ==> grams >= PumpToWheel(g.samples, CO2)
    ensures g.config.wellToTankFactor == 0.0 ==> grams == PumpToWheel(g.samples, CO2)
  {
    PumpToWheel(g.samples, CO2) + WellToPumpCO2(g)
  }

  /** `self.d`: the distance the vehicle's cycle covers, in km. */
  function VehicleDistance(g: Gasoline): real {
    TripStats.Distance(SpeedColumn(g.samples))
  }

  /** `mpg`: the vehicle's distance in miles per gallon of the fuel it
      burns. Miles per gallon times gallons burnt gives miles travelled. */
  function Mpg(g: Gasoline): (mpg: real)
    requires FuelBurnt(g.samples) != 0.0
    ensures mpg * (FuelBurnt(g.samples) / 3785.412) == VehicleDistance(g) / 1.60934
    ensures VehicleDistance(g) > 0.0 && FuelBurnt(g.samples) > 0.0 ==> mpg > 0.0
  {
    (VehicleDistance(g) / 1.60934) / (FuelBurnt(g.samples) / 3785.412)
  }

  /** `pump_to_wheel_<p>_per_km`: the cycle total of `p` per kilometre
      travelled. Times the distance it gives the total back. */
  function PerKm(g: Gasoline, p: Pollutant): (perKm: real)
    requires VehicleDistance(g) != 0.0
    ensures perKm * VehicleDistance(g) == PumpToWheel(g.samples, p)
    ensures NonNegativeRates(g.samples) && VehicleDistance(g) > 0.0 ==> perKm >= 0.0
  {
    PumpToWheel(g.samples, p) / VehicleDistance(g)
  }

  /** `well_to_wheel_CO2_per_km`: well-to-wheel CO2 per kilometre; it
      splits into the tailpipe part and the upstream part. */
  function WellToWheelPerKm(g: Gasoline): (perKm: real)
    requires VehicleDistance(g) != 0.0
    ensures perKm * VehicleDistance(g) == WellToWheelCO2(g)
    ensures perKm == PerKm(g, CO2) + WellToPumpCO2(g) / VehicleDistance(g)
  {
    QuotientOfSum(PumpToWheel(g.samples, CO2), WellToPumpCO2(g), VehicleDistance(g));
    WellToWheelCO2(g) / VehicleDistance(g)
  }

  lemma QuotientOfSum(a: real, b: real, d: real)
    requires d != 0.0
    ensures (a + b) / d == a / d + b / d
  {
  }

  lemma PumpToWheelCongruent(s1: seq<Sample>, s2: seq<Sample>, p: Pollutant)
    requires |s1| == |s2|
    requires forall i :: 0 <= i < |s1| ==> RateOf(s1[i].rates, p) == RateOf(s2[i].rates, p)
    ensures PumpToWheel(s1, p) == PumpToWheel(s2, p)
  {
    assert RateColumn(s1, p) == RateColumn(s2, p);
  }

  /** The HC rates never reach the fuel estimate: cycles that differ only in
      their HC rates burn the same fuel. */
  lemma FuelBurntIgnoresHC(s1: seq<Sample>, s2: seq<Sample>)
    requires |s1| == |s2|
    requires forall i, p: Pollutant :: 0 <= i < |s1| && p != HC ==> RateOf(s1[i].rates, p) == RateOf(s2[i].rates, p)
    ensures FuelBurnt(s1) == FuelBurnt(s2)
  {
    PumpToWheelCongruent(s1, s2, NOx);
    PumpToWheelCongruent(s1, s2, CO);
    PumpToWheelCongruent(s1, s2, CO2);
  }

  /** Well-to-wheel CO2 in terms of the three tailpipe totals alone. */
  lemma WellToWheelFromTotals(g: Gasoline)
    ensures WellToWheelCO2(g)
            == PumpToWheel(g.samples, CO2)
               + (0.866 * PumpToWheel(g.samples, NOx) + 0.429 * PumpToWheel(g.samples, CO)
                  + 0.273 * PumpToWheel(g.samples, CO2)) * EnergyDensity * g.config.wellToTankFactor
                 / (GasolineDensity * CarbonFraction)
  {
    var carbon := 0.866 * PumpToWheel(g.samples, NOx) + 0.429 * PumpToWheel(g.samples, CO)
                  + 0.273 * PumpToWheel(g.samples, CO2);
    assert FuelBurnt(g.samples) == carbon * 1000.0 / (GasolineDensity * CarbonFraction);
  }

  ghost predicate NonNegativeRates(samples: seq<Sample>) {
    forall i, p: Pollutant :: 0 <= i < |samples| ==> RateOf(samples[i].rates, p) >= 0.0
  }

  // ---------------------------------------------------------------------
  // Properties of a constructed vehicle.
  // ---------------------------------------------------------------------

  lemma ValidRatesFromTable(g: Gasoline)
    requires Valid(g)
    ensures RatesFromTable(g.samples, g.table)
  {
    forall i | 0 <= i < |g.samples|
      ensures g.samples[i].mode in ModeCodes
    {
      assert RowMatches(g.samples[i], g.config, g.coefficients, g.table, SpeedColumn(g.samples), i);
    }
  }

  /** For every pollutant, the vehicle's tailpipe total is the time spent
      in each operating mode times that mode's table rate, summed over the
      23 modes. */
  lemma VehicleTotalsByOccupancy(g: Gasoline, p: Pollutant)
    requires Valid(g)
    ensures PumpToWheel(g.samples, p) == OccupancyTotal(g.samples, ModeList, g.table, p)
  {
    ValidRatesFromTable(g);
    PumpToWheelByOccupancy(g.samples, g.table, p);
  }

  /** Every sample of a cycle standing still throughout emits the idle-mode
      rates of the table. */
  lemma StandingCycleRates(g: Gasoline)
    requires Valid(g)
    requires forall i :: 0 <= i < |g.samples| ==> g.samples[i].speed == 0.0
    ensures Covers(g.table, 1)
    ensures forall i, p: Pollutant :: 0 <= i < |g.samples| ==> RateOf(g.samples[i].rates, p) == g.table[(1, p)]
  {
    StandingCycleIsIdle(g);
    RowRates(g, 0);
    forall i | 0 <= i < |g.samples|
      ensures forall p: Pollutant :: RateOf(g.samples[i].rates, p) == g.table[(1, p)]
    {
      RowRates(g, i);
    }
  }

  /** A cycle whose every sample emits the same NOx, CO and CO2 rates burns
      the fuel whose carbon matches the cycle length times those rates; with
      the rates of `StandingCycleRates` this is the fuel a cycle standing
      still burns. */
  lemma FuelAtConstantRates(samples: seq<Sample>, nox: real, co: real, co2: real)
    requires forall i :: 0 <= i < |samples| ==> RateOf(samples[i].rates, NOx) == nox
    requires forall i :: 0 <= i < |samples| ==> RateOf(samples[i].rates, CO) == co
    requires forall i :: 0 <= i < |samples| ==> RateOf(samples[i].rates, CO2) == co2
    ensures FuelBurnt(samples)
            == CarbonBalanceFuel((|samples| as real) * nox, (|samples| as real) * co, (|samples| as real) * co2)
  {
    TotalsAtConstantRates(samples, nox, co, co2);
    FuelOfTotals(samples, (|samples| as real) * nox, (|samples| as real) * co, (|samples| as real) * co2);
  }

  /** Constant NOx, CO and CO2 rates give totals of the cycle length times
      each rate. */
  lemma TotalsAtConstantRates(samples: seq<Sample>, nox: real, co: real, co2: real)
    requires forall i :: 0 <= i < |samples| ==> RateOf(samples[i].rates, NOx) == nox
    requires forall i :: 0 <= i < |samples| ==> RateOf(samples[i].rates, CO) == co
    requires forall i :: 0 <= i < |samples| ==> RateOf(samples[i].rates, CO2) == co2
    ensures PumpToWheel(samples, NOx) == (|samples| as real) * nox
    ensures PumpToWheel(samples, CO) == (|samples| as real) * co
    ensures PumpToWheel(samples, CO2) == (|samples| as real) * co2
  {
    PumpToWheelAtConstantRate(samples, NOx, nox);
    PumpToWheelAtConstantRate(samples, CO, co);
    PumpToWheelAtConstantRate(samples, CO2, co2);
  }

  /** Fuel burnt depends on the cycle only through its NOx, CO and CO2 totals. */
  lemma FuelOfTotals(samples: seq<Sample>, nox: real, co: real, co2: real)
    requires PumpToWheel(samples, NOx) == nox && PumpToWheel(samples, CO) == co
    requires PumpToWheel(samples, CO2) == co2
    ensures FuelBurnt(samples) == CarbonBalanceFuel(nox, co, co2)
  {
  }

  /** The carbon balance is linear: n times each total burns n times the fuel. */
  lemma CarbonBalanceScales(n: real, hcSlot: real, co: real, co2: real)
    ensures CarbonBalanceFuel(n * hcSlot, n * co, n * co2) == n * CarbonBalanceFuel(hcSlot, co, co2)
  {
  }
}

=== FILE: kinematics.dfy ===
/** The kinematics stage: the acceleration column derived from the speed
    column, and the zero-padded acceleration history the classifier reads. */
module Kinematics {
  import opened Series

  /** Consecutive differences of a column. */
  function Differences(s: seq<real>): (d: seq<real>)
    ensures |d| == if |s| == 0 then 0 else |s| - 1
    ensures forall i :: 0 <= i < |d| ==> d[i] == s[i + 1] - s[i]
  {
    if |s| < 2 then [] else [s[1] - s[0]] + Differences(s[1..])
  }

  /** The acceleration column: 0 for the first sample (1 Hz sampling), then
      the change in speed since the previous sample. */
  function Accelerations(speed: seq<real>): (acc: seq<real>)
    ensures |acc| == |speed|
    ensures |speed| > 0 ==> acc[0] == 0.0
    ensures forall i :: 0 < i < |speed| ==> acc[i] == speed[i] - speed[i - 1]
  {
    if |speed| == 0 then [] else [0.0] + Differences(speed)
  }

  /** The code's acceleration loop, which carries the previous speed in
      `v0` rather than indexing back. It starts from the first speed, so the
      cycle must have one. */
  method AccelerationColumn(speed: seq<real>) returns (acc: seq<real>)
    requires |speed| > 0
    ensures acc == Accelerations(speed)
  {
    var v0 := speed[0];
    acc := [];
    var idx := 0;
    while idx < |speed|
      invariant 0 <= idx <= |speed|
      invariant |acc| == idx
      invariant forall j :: 0 <= j < idx ==> acc[j] == Accelerations(speed)[j]
      invariant v0 == speed[if idx == 0 then 0 else idx - 1]
    {
      var v := speed[idx];
      var a: real;
      if idx == 0 {
        a := 0.0;
      } else {
        a := v - v0;
        v0 := v;
      }
      acc := acc + [a];
      idx := idx + 1;
    }
  }

  /** Accelerations are an exact inverse of speeds up to the first speed:
      each speed is the first one plus the accelerations so far. */
  lemma {:induction false} SpeedFromAccelerations(speed: seq<real>, i: nat)
    requires i < |speed|
    ensures speed[i] == speed[0] + Sum(Accelerations(speed)[..i + 1])
  {
    var acc := Accelerations(speed);
    if i == 0 {
      assert acc[..1] == [0.0];
    } else {
      SpeedFromAccelerations(speed, i - 1);
      assert acc[..i + 1] == acc[..i] + [acc[i]];
      SumAppend(acc[..i], [acc[i]]);
    }
  }

  /** The acceleration `back` samples before sample `i`. The code looks
      the value up by label; labels before the first sample do not exist,
      the lookup raises, and its handler substitutes 0. */
  function Lookback(acc: seq<real>, i: nat, back: nat): real
    requires i < |acc|
  {
    if i >= back then acc[i - back] else 0.0
  }

  /** The zero-padded history is position `i` of the column shifted right
      by `back` zeros: the rows before the first `back` see 0. */
  lemma LookbackReadsPaddedColumn(acc: seq<real>, i: nat, back: nat)
    requires i < |acc|
    ensures Lookback(acc, i, back) == (seq(back, _ => 0.0) + acc)[i]
  {
  }
}

=== FILE: operating_mode.dfy ===
/** The operating-mode classifier `vsp_to_op_mod`: a decision tree over
    VSP, speed and a three-sample acceleration history that yields one of
    23 operating-mode codes. */
module OperatingMode {
  import opened Units

  /** Every code the classifier can return: braking (0), idle (1), the
      low-speed band 11-16, the mid-speed band 21-30 (no 26) and the
      high-speed band 33-40. */
  const ModeCodes: set<int> :=
    {0, 1, 11, 12, 13, 14, 15, 16, 21, 22, 23, 24, 25, 27, 28, 29, 30, 33, 35, 37, 38, 39, 40}

  /** The classifier as written. Inputs are in SI units (m/s, m/s^2); the
      speed and the accelerations are converted to mph and mph/s first.
      The converted `accT1` is immediately overwritten in the code by the
      converted `accT2`, so the three-sample braking test compares the
      converted `accT2` and the raw, unconverted `accT2` against -1, and
      `accT1` plays no part in the result. */
  function OpMode(vsp: real, speedT: real, accT: real, accT1: real, accT2: real): (m: int)
    ensures m in ModeCodes
  {
    var speedMph := MpsToMph(speedT);
    var accTMph := Mps2ToMphPerSec(accT);
    var accT1Mph := Mps2ToMphPerSec(accT2);
    if accTMph <= -2.0 || (accTMph <= -1.0 && accT1Mph <= -1.0 && accT2 <= -1.0) then 0
    else if speedMph < 1.0 then 1
    else if speedMph <= 25.0 then
      if vsp < 0.0 then 11
      else if 0.0 <= vsp < 3.0 then 12
      else if 3.0 <= vsp < 6.0 then 13
      else if 6.0 <= vsp < 9.0 then 14
      else if 9.0 <= vsp < 12.0 then 15
      else 16
    else if 25.0 < speedMph <= 50.0 then
      if vsp < 0.0 then 21
      else if 0.0 <= vsp < 3.0 then 22
      else if 3.0 <= vsp < 6.0 then 23
      else if 6.0 <= vsp < 9.0 then 24
      else if 9.0 <= vsp < 12.0 then 25
      else if 12.0 <= vsp < 18.0 then 27
      else if 18.0 <= vsp < 24.0 then 28
      else if 24.0 <= vsp < 30.0 then 29
      else 30
    else
      if vsp < 6.0 then 33
      else if 6.0 <= vsp < 12.0 then 35
      else if 12.0 <= vsp < 18.0 then 37
      else if 18.0 <= vsp < 24.0 then 38
      else if 24.0 <= vsp < 30.0 then 39
      else 40
  }

  // ---------------------------------------------------------------------
  // An independent, table-driven definition of the same classification.
  // ---------------------------------------------------------------------

  /** An end of an interval: unbounded, or a finite value. */
  datatype Bound = Unbounded | At(x: real)

  /** A VSP bin: the half-open interval [lo, hi) and the code it selects. */
  datatype Bin = Bin(lo: Bound, hi: Bound, code: int)

  predicate InBin(b: Bin, vsp: real) {
    (b.lo.Unbounded? || b.lo.x <= vsp) && (b.hi.Unbounded? || vsp < b.hi.x)
  }

  /** VSP bins for 1 <= mph <= 25. */
  const LowSpeedBins: seq<Bin> := [
    Bin(Unbounded, At(0.0), 11), Bin(At(0.0), At(3.0), 12), Bin(At(3.0), At(6.0), 13),
    Bin(At(6.0), At(9.0), 14), Bin(At(9.0), At(12.0), 15), Bin(At(12.0), Unbounded, 16)]

  /** VSP bins for 25 < mph <= 50. */
  const MidSpeedBins: seq<Bin> := [
    Bin(Unbounded, At(0.0), 21), Bin(At(0.0), At(3.0), 22), Bin(At(3.0), At(6.0), 23),
    Bin(At(6.0), At(9.0), 24), Bin(At(9.0), At(12.0), 25), Bin(At(12.0), At(18.0), 27),
    Bin(At(18.0), At(24.0), 28), Bin(At(24.0), At(30.0), 29), Bin(At(30.0), Unbounded, 30)]

  /** VSP bins for mph > 50. */
  const HighSpeedBins: seq<Bin> := [
    Bin(Unbounded, At(6.0), 33), Bin(At(6.0), At(12.0), 35), Bin(At(12.0), At(18.0), 37),
    Bin(At(18.0), At(24.0), 38), Bin(At(24.0), At(30.0), 39), Bin(At(30.0), Unbounded, 40)]

  /** A bin table partitions the real line: it starts unbounded below, ends
      unbounded above, and each bin begins where the previous one ends. */
  ghost predicate Partitions(bins: seq<Bin>) {
    && |bins| > 0
    && bins[0].lo.Unbounded?
    && bins[|bins| - 1].hi.Unbounded?
    && (forall k :: 0 <= k < |bins| - 1 ==> bins[k].hi.At? && bins[k].hi == bins[k + 1].lo)
  }

  lemma BinTablesPartition()
    ensures Partitions(LowSpeedBins) && Partitions(MidSpeedBins) && Partitions(HighSpeedBins)
  {
  }

  /** The speed band of a moving sample (speed in mph, at least 1). Bands
      are closed above: 25 mph is in the low band, 50 mph in the middle one. */
  function BandBins(mph: real): seq<Bin> {
    if mph <= 25.0 then LowSpeedBins
    else if mph <= 50.0 then MidSpeedBins
    else HighSpeedBins
  }

  /** The braking override, simplified: hard braking (at most -2 mph/s), or
      moderate braking (at most -1 mph/s) while the raw two-back value is at
      most -1. */
  predicate Braking(accT: real, accT2: real) {
    MphPerMps * accT <= -2.0 || (MphPerMps * accT <= -1.0 && accT2 <= -1.0)
  }

  /** The classifier agrees with the bin tables: braking gives 0 and only
      braking does; otherwise a speed under 1 mph gives 1 and only that
      does; otherwise the code is that of the VSP bin, in the speed band's
      table, that contains the VSP. */
  lemma ClassifierMatchesBinTables(vsp: real, speedT: real, accT: real, accT1: real, accT2: real)
    ensures OpMode(vsp, speedT, accT, accT1, accT2) == 0 <==> Braking(accT, accT2)
    ensures OpMode(vsp, speedT, accT, accT1, accT2) == 1
            <==> !Braking(accT, accT2) && MpsToMph(speedT) < 1.0
    ensures !Braking(accT, accT2) && MpsToMph(speedT) >= 1.0 ==>
            forall k :: 0 <= k < |BandBins(MpsToMph(speedT))| && InBin(BandBins(MpsToMph(speedT))[k], vsp) ==>
              OpMode(vsp, speedT, accT, accT1, accT2) == BandBins(MpsToMph(speedT))[k].code
  {
  }

  /** The second history argument never affects the result. */
  lemma AccTMinus1Ignored(vsp: real, speedT: real, accT: real, x: real, y: real, accT2: real)
    ensures OpMode(vsp, speedT, accT, x, accT2) == OpMode(vsp, speedT, accT, y, accT2)
  {
  }

  /** Hard braking wins over every speed and VSP test. */
  lemma HardBrakingOverrides(vsp: real, speedT: real, accT: real, accT1: real, accT2: real)
    requires Mps2ToMphPerSec(accT) <= -2.0
    ensures OpMode(vsp, speedT, accT, accT1, accT2) == 0
  {
  }

  /** A vehicle standing still with no acceleration in the current and the
      two-back sample is idling, whatever its VSP and previous sample. */
  lemma StandingStillIsIdle(vsp: real, accT1: real)
    ensures OpMode(vsp, 0.0, 0.0, accT1, 0.0) == 1
  {
  }

  /** Each decade of codes is exactly one speed band of non-braking samples:
      1-25 mph (25 included), 25-50 mph (50 included), above 50 mph. */
  lemma SpeedBandsOfCodes(vsp: real, speedT: real, accT: real, accT1: real, accT2: real)
    ensures var m := OpMode(vsp, speedT, accT, accT1, accT2);
            11 <= m <= 16 <==> !Braking(accT, accT2) && 1.0 <= MpsToMph(speedT) <= 25.0
    ensures var m := OpMode(vsp, speedT, accT, accT1, accT2);
            21 <= m <= 30 <==> !Braking(accT, accT2) && 25.0 < MpsToMph(speedT) <= 50.0
    ensures var m := OpMode(vsp, speedT, accT, accT1, accT2);
            33 <= m <= 40 <==> !Braking(accT, accT2) && 50.0 < MpsToMph(speedT)
  {
    ClassifierMatchesBinTables(vsp, speedT, accT, accT1, accT2);
  }

  /** A VSP equal to a bin's lower bound falls in the bin that starts there. */
  lemma LowerBoundsSelectTheirBin(speedT: real, accT: real, accT1: real, accT2: real, k: nat)
    requires !Braking(accT, accT2) && MpsToMph(speedT) >= 1.0
    requires k < |BandBins(MpsToMph(speedT))|
    requires BandBins(MpsToMph(speedT))[k].lo.At?
    ensures OpMode(BandBins(MpsToMph(speedT))[k].lo.x, speedT, accT, accT1, accT2)
            == BandBins(MpsToMph(speedT))[k].code
  {
    var bins := BandBins(MpsToMph(speedT));
    var vsp := bins[k].lo.x;
    ClassifierMatchesBinTables(vsp, speedT, accT, accT1, accT2);
    assert InBin(bins[k], vsp);
  }

  /** No code is dead: each of the 23 codes is produced by some input. */
  lemma EveryModeReachable(m: int)
    requires m in ModeCodes
    ensures exists vsp, speedT, accT, accT1, accT2 :: OpMode(vsp, speedT, accT, accT1, accT2) == m
  {
    // speeds of 5, 15 and 30 m/s are about 11, 34 and 67 mph
    var s := if m == 1 then 0.0 else if m < 20 then 5.0 else if m < 33 then 15.0 else 30.0;
    var a := if m == 0 then -1.0 else 0.0;
    var vsp :=
      if m in {11, 21} then -1.0
      else if m in {12, 22} then 1.0
      else if m in {13, 23, 33} then 4.0
      else if m in {14, 24} then 7.0
      else if m in {15, 25, 35} then 10.0
      else if m in {16, 27, 37} then 15.0
      else if m in {28, 38} then 20.0
      else if m in {29, 39} then 25.0
      else 31.0;
    assert OpMode(vsp, s, a, 0.0, 0.0) == m;
  }
}

=== FILE: physics.dfy ===
/** Road-load physics: the VSP regression coefficients per vehicle class,
    tractive power and vehicle specific power. */
module Physics {

  /** The four VSP regression coefficients (A, B, C, f) of a vehicle class. */
  datatype Coefficients = Coefficients(a: real, b: real, c: real, f: real)

  const PassengerCarCoefficients: Coefficients :=
    Coefficients(0.156461, 0.002002, 0.000493, 1.4788)
  const PassengerTruckCoefficients: Coefficients :=
    Coefficients(0.22112, 0.002838, 0.000698, 1.86686)
  /** The light-commercial-truck set; `VspCoeff` never returns it. */
  const LightCommercialTruckCoefficients: Coefficients :=
    Coefficients(0.235008, 0.003039, 0.000748, 2.05979)

  /** Python's truth value of a string: true exactly when it is non-empty. */
  predicate Truthy(s: string) {
    |s| > 0
  }

  /** The coefficient table. The second test is written in the code as
      `vehicle_type == 'Passenger truck' or 'SUV'`, whose right operand is a
      non-empty string and so always true; the model keeps that reading. */
  function VspCoeff(vehicle: string): (k: Coefficients)
    ensures k == PassengerCarCoefficients <==> vehicle == "Passenger car"
    ensures k != PassengerCarCoefficients ==> k == PassengerTruckCoefficients
    ensures k.a > 0.0 && k.b > 0.0 && k.c > 0.0 && k.f > 0.0
  {
    if vehicle == "Passenger car" then
      PassengerCarCoefficients
    else if vehicle == "Passenger truck" || Truthy("SUV") then
      PassengerTruckCoefficients
    else
      LightCommercialTruckCoefficients
  }

  /** No vehicle class, the light commercial truck included, is given the
      third coefficient set. */
  lemma LightTruckCoefficientsUnreachable(vehicle: string)
    ensures VspCoeff(vehicle) != LightCommercialTruckCoefficients
    ensures VspCoeff("Light commercial truck") == PassengerTruckCoefficients
    ensures VspCoeff("SUV") == VspCoeff("Passenger truck")
  {
  }

  const Gravity: real := 9.81

  /** Tractive power in watts of a vehicle of `mass` kg at speed `v` (m/s)
      and acceleration `a` (m/s^2): rolling resistance plus inertia, times
      speed, plus aerodynamic drag. */
  function TractivePower(v: real, a: real, mass: real, frontalArea: real,
                         muRr: real, airDensity: real, cd: real): (p: real)
    ensures v == 0.0 ==> p == 0.0
  {
    v * mass * (a + muRr * Gravity) + 0.5 * airDensity * cd * frontalArea * (v * v * v)
  }

  /** Changing only the acceleration changes tractive power by the inertial
      term mass * delta-a * v; so at positive speed and mass, power grows
      strictly with acceleration. */
  lemma TractivePowerAccelerationTerm(v: real, a1: real, a2: real, mass: real,
                                      frontalArea: real, muRr: real, airDensity: real, cd: real)
    ensures TractivePower(v, a2, mass, frontalArea, muRr, airDensity, cd)
            - TractivePower(v, a1, mass, frontalArea, muRr, airDensity, cd)
            == v * mass * (a2 - a1)
    ensures v > 0.0 && mass > 0.0 && a1 < a2 ==>
            TractivePower(v, a1, mass, frontalArea, muRr, airDensity, cd)
            < TractivePower(v, a2, mass, frontalArea, muRr, airDensity, cd)
  {
  }

  /** Vehicle specific power in kW/ton, for a mass in metric tons. */
  function Vsp(v: real, a: real, massTons: real, k: Coefficients): (vsp: real)
    requires k.f != 0.0
    ensures v == 0.0 ==> vsp == 0.0
  {
    (k.a * v + k.b * (v * v) + k.c * (v * v * v) + massTons * a * v) / k.f
  }

  /** With positive coefficients and mass, VSP is positive whenever the
      vehicle moves forward without decelerating. */
  lemma VspPositiveWhenNotDecelerating(v: real, a: real, massTons: real, k: Coefficients)
    requires k.a > 0.0 && k.b > 0.0 && k.c > 0.0 && k.f > 0.0
    requires v > 0.0 && a >= 0.0 && massTons > 0.0
    ensures Vsp(v, a, massTons, k) > 0.0
  {
  }
}

=== FILE: results.dfy ===
/** A result type, so that the error paths of the pipeline (an empty cycle,
    a missing emission-rate entry) are values rather than preconditions. */
module Results {

  datatype Result<+T, +E> = Ok(value: T) | Err(error: E)
}

=== FILE: series.dfy ===
/** Sums, counts and selections over numeric columns, the operations the
    code delegates to pandas (`sum`, `count`, boolean selection). */
module Series {

  /** The sum of a column; 0 for an empty one, as pandas gives. */
  function Sum(s: seq<real>): real {
    if |s| == 0 then 0.0 else s[0] + Sum(s[1..])
  }

  lemma {:induction false} SumAppend(a: seq<real>, b: seq<real>)
    ensures Sum(a + b) == Sum(a) + Sum(b)
  {
    if |a| == 0 {
      assert a + b == b;
    } else {
      assert (a + b)[1..] == a[1..] + b;
      SumAppend(a[1..], b);
    }
  }

  /** Every element multiplied by `k`. */
  function Scale(k: real, s: seq<real>): (r: seq<real>)
    ensures |r| == |s|
  {
    if |s| == 0 then [] else [k * s[0]] + Scale(k, s[1..])
  }

  /** Scaling a column scales its sum. */
  lemma {:induction false} SumScale(k: real, s: seq<real>)
    ensures Sum(Scale(k, s)) == k * Sum(s)
  {
    if |s| > 0 {
      assert Scale(k, s)[1..] == Scale(k, s[1..]);
      SumScale(k, s[1..]);
    }
  }

  /** A column holding one value `v` throughout sums to |s| * v. */
  lemma {:induction false} SumConstant(s: seq<real>, v: real)
    requires forall i :: 0 <= i < |s| ==> s[i] == v
    ensures Sum(s) == |s| as real * v
  {
    if |s| > 0 {
      SumConstant(s[1..], v);
    }
  }

  /** The number of elements satisfying `p`. */
  function Count(s: seq<real>, p: real -> bool): (n: nat)
    ensures n <= |s|
  {
    if |s| == 0 then 0 else (if p(s[0]) then 1 else 0) + Count(s[1..], p)
  }

  /** Count reaches |s| exactly when every element satisfies `p`, and is
      zero exactly when none does. */
  lemma {:induction false} CountExtremes(s: seq<real>, p: real -> bool)
    ensures Count(s, p) == |s| <==> forall i :: 0 <= i < |s| ==> p(s[i])
    ensures Count(s, p) == 0 <==> forall i :: 0 <= i < |s| ==> !p(s[i])
  {
    if |s| > 0 {
      CountExtremes(s[1..], p);
      assert forall i :: 1 <= i < |s| ==> s[i] == s[1..][i - 1];
    }
  }

  /** Two disjoint selections together hold no more than the whole column,
      and strictly fewer when the first element is in neither. */
  lemma {:induction false} CountDisjoint(s: seq<real>, p: real -> bool, q: real -> bool)
    requires forall x :: !(p(x) && q(x))
    ensures Count(s, p) + Count(s, q) <= |s|
    ensures |s| > 0 && !p(s[0]) && !q(s[0]) ==> Count(s, p) + Count(s, q) <= |s| - 1
  {
    if |s| > 0 {
      CountDisjoint(s[1..], p, q);
    }
  }

  /** The elements satisfying `p`, in order (a boolean selection). */
  function Filter(s: seq<real>, p: real -> bool): (r: seq<real>)
    ensures |r| == Count(s, p)
    ensures forall i :: 0 <= i < |r| ==> p(r[i])
    ensures forall x :: x in r ==> x in s
    ensures forall i :: 0 <= i < |s| && p(s[i]) ==> s[i] in r
  {
    if |s| == 0 then []
    else if p(s[0]) then [s[0]] + Filter(s[1..], p)
    else Filter(s[1..], p)
  }

  /** `s` with every element failing `p` replaced by 0. */
  function Masked(s: seq<real>, p: real -> bool): seq<real> {
    seq(|s|, i requires 0 <= i < |s| => if p(s[i]) then s[i] else 0.0)
  }

  /** Zeroing the elements that fail `p` leaves the sum of the selection. */
  lemma {:induction false} SumMasked(s: seq<real>, p: real -> bool)
    ensures Sum(Masked(s, p)) == Sum(Filter(s, p))
  {
    if |s| > 0 {
      assert Masked(s, p)[1..] == Masked(s[1..], p);
      SumMasked(s[1..], p);
      if p(s[0]) {
        assert ([s[0]] + Filter(s[1..], p))[1..] == Filter(s[1..], p);
      }
    }
  }

  /** A non-empty column of positive values has a positive sum. */
  lemma {:induction false} SumPositive(s: seq<real>)
    requires |s| > 0
    requires forall i :: 0 <= i < |s| ==> s[i] > 0.0
    ensures Sum(s) > 0.0
  {
    if |s| > 1 {
      SumPositive(s[1..]);
    }
  }

  /** A non-empty column of negative values has a negative sum. */
  lemma {:induction false} SumNegative(s: seq<real>)
    requires |s| > 0
    requires forall i :: 0 <= i < |s| ==> s[i] < 0.0
    ensures Sum(s) < 0.0
  {
    if |s| > 1 {
      SumNegative(s[1..]);
    }
  }

  /** A column of non-negative values has a non-negative sum. */
  lemma {:induction false} SumNonNegative(s: seq<real>)
    ensures (forall i :: 0 <= i < |s| ==> s[i] >= 0.0) ==> Sum(s) >= 0.0
  {
    if |s| > 0 {
      SumNonNegative(s[1..]);
      assert forall i :: 0 <= i < |s| - 1 ==> s[1..][i] == s[i + 1];
    }
  }

  /** Every element above `c` puts the sum above |s| * c. */
  lemma {:induction false} SumAbove(s: seq<real>, c: real)
    requires |s| > 0
    requires forall i :: 0 <= i < |s| ==> s[i] > c
    ensures Sum(s) > (|s| as real) * c
  {
    if |s| > 1 {
      SumAbove(s[1..], c);
    }
  }

  /** Every element below `c` puts the sum below |s| * c. */
  lemma {:induction false} SumBelow(s: seq<real>, c: real)
    requires |s| > 0
    requires forall i :: 0 <= i < |s| ==> s[i] < c
    ensures Sum(s) < (|s| as real) * c
  {
    if |s| > 1 {
      SumBelow(s[1..], c);
    }
  }

  /** The mean of a non-empty column lies between its smallest and its
      largest element: some element is at most the mean, some at least. */
  lemma MeanWithinElements(s: seq<real>)
    requires |s| > 0
    ensures exists i :: 0 <= i < |s| && s[i] <= Sum(s) / (|s| as real)
    ensures exists j :: 0 <= j < |s| && Sum(s) / (|s| as real) <= s[j]
  {
    var mean := Sum(s) / (|s| as real);
    assert (|s| as real) * mean == Sum(s);
    if forall i :: 0 <= i < |s| ==> s[i] > mean {
      SumAbove(s, mean);
    }
    if forall j :: 0 <= j < |s| ==> s[j] < mean {
      SumBelow(s, mean);
    }
  }

  /** The mean of a non-empty selection lies between the smallest and the
      largest selected element of the original column. */
  lemma SelectionMeanBounds(s: seq<real>, p: real -> bool)
    requires Count(s, p) > 0
    ensures exists i :: 0 <= i < |s| && p(s[i]) && s[i] <= Sum(Filter(s, p)) / (Count(s, p) as real)
    ensures exists j :: 0 <= j < |s| && p(s[j]) && Sum(Filter(s, p)) / (Count(s, p) as real) <= s[j]
  {
    var r := Filter(s, p);
    MeanWithinElements(r);
    var k :| 0 <= k < |r| && r[k] <= Sum(r) / (|r| as real);
    var l :| 0 <= l < |r| && Sum(r) / (|r| as real) <= r[l];
    assert r[k] in s && r[l] in s;
    var i :| 0 <= i < |s| && s[i] == r[k];
    var j :| 0 <= j < |s| && s[j] == r[l];
  }
}

=== FILE: trip_stats.dfy ===
/** Trip statistics of a driving cycle sampled at 1 Hz: distance, average
    speed, stops, and the shares of idling, accelerating and decelerating
    samples. */
module TripStats {
  import opened Series
  import opened Kinematics

  /** Distance in km: at 1 Hz each speed sample (m/s) covers that many
      metres; non-negative speeds give a non-negative distance. */
  function Distance(speed: seq<real>): (km: real)
    ensures (forall i :: 0 <= i < |speed| ==> speed[i] >= 0.0) ==> km >= 0.0
  {
    SumNonNegative(speed);
    Sum(speed) / 1000.0
  }

  /** A cycle held at `v` m/s for n seconds covers n * v metres. */
  lemma DistanceAtConstantSpeed(speed: seq<real>, v: real)
    requires forall i :: 0 <= i < |speed| ==> speed[i] == v
    ensures Distance(speed) * 1000.0 == (|speed| as real) * v
  {
    SumConstant(speed, v);
  }

  /** Scaling every speed by `k` scales the distance by `k`. */
  lemma DistanceScales(k: real, speed: seq<real>)
    ensures Distance(Scale(k, speed)) == k * Distance(speed)
  {
    SumScale(k, speed);
  }

  /** Average speed in km/h: distance over travel time in hours. */
  function AverageSpeed(speed: seq<real>): (kmph: real)
    requires |speed| > 0
    ensures kmph == 3.6 * (Sum(speed) / |speed| as real)
  {
    Distance(speed) / (|speed| as real / 3600.0)
  }

  // ---------------------------------------------------------------------
  // Stops.
  // ---------------------------------------------------------------------

  const FeetPerMetre: real := 3.28084
  /** Reaching 15 ft/s arms the stop detector; falling below 10 ft/s while
      armed counts a stop and disarms it. */
  const ArmingFps: real := 15.0
  const StoppedFps: real := 10.0

  datatype StopState = StopState(stops: nat, armed: bool)

  /** One sample of the stop detector; the two tests run in order, the
      second seeing the flag the first may have set. */
  function StopStep(st: StopState, v: real): StopState {
    var fps := v * FeetPerMetre;
    var armed := if fps >= ArmingFps then true else st.armed;
    if fps < StoppedFps && armed then StopState(st.stops + 1, false)
    else StopState(st.stops, armed)
  }

  /** The detector run over a column, from state `st`. */
  function RunStops(st: StopState, speed: seq<real>): (r: StopState)
    ensures 2 * r.stops + (if r.armed then 1 else 0) <= 2 * st.stops + (if st.armed then 1 else 0) + |speed|
    ensures (forall i :: 0 <= i < |speed| ==> speed[i] * FeetPerMetre < ArmingFps) ==>
            r.stops <= st.stops + (if st.armed then 1 else 0)
    ensures (forall i :: 0 <= i < |speed| ==> speed[i] * FeetPerMetre < ArmingFps) && !st.armed ==> r == st
    decreases |speed|
  {
    if |speed| == 0 then st else RunStops(StopStep(st, speed[0]), speed[1..])
  }

  const Unarmed: StopState := StopState(0, false)

  /** The stop count of a cycle. */
  function StopCount(speed: seq<real>): nat {
    RunStops(Unarmed, speed).stops
  }

  /** A stop needs a distinct earlier arming sample, so a cycle has at most
      half as many stops as samples; one never reaching 15 ft/s has none. */
  lemma StopCountBounds(speed: seq<real>)
    ensures 2 * StopCount(speed) <= |speed|
    ensures (forall i :: 0 <= i < |speed| ==> speed[i] * FeetPerMetre < ArmingFps) ==> StopCount(speed) == 0
  {
  }

  /** The count rises, by exactly one, only on an armed sample below 10 ft/s. */
  lemma StopCountedOnlyWhenArmedAndSlow(st: StopState, v: real)
    ensures StopStep(st, v).stops == st.stops || StopStep(st, v).stops == st.stops + 1
    ensures StopStep(st, v).stops == st.stops + 1 <==> st.armed && v * FeetPerMetre < StoppedFps
  {
  }

  /** `no_of_stops_per_km`'s counting loop. */
  method NoOfStops(speed: seq<real>) returns (stops: nat)
    ensures stops == StopCount(speed)
    ensures 2 * stops <= |speed|
  {
    stops := 0;
    var flag := false;
    var i := 0;
    while i < |speed|
      invariant 0 <= i <= |speed|
      invariant RunStops(StopState(stops, flag), speed[i..]) == RunStops(Unarmed, speed)
    {
      assert speed[i..][1..] == speed[i + 1..];
      var vFps := speed[i] * FeetPerMetre;
      if vFps >= ArmingFps {
        flag := true;
      }
      if vFps < StoppedFps && flag {
        stops := stops + 1;
        flag := false;
      }
      i := i + 1;
    }
    assert speed[i..] == [];
    StopCountBounds(speed);
  }

  /** Stops per kilometre. */
  function StopsPerKm(speed: seq<real>): (r: real)
    requires Distance(speed) != 0.0
    ensures r * Distance(speed) == StopCount(speed) as real
  {
    StopCount(speed) as real / Distance(speed)
  }

  // ---------------------------------------------------------------------
  // Shares of idling, accelerating and decelerating samples.
  // ---------------------------------------------------------------------

  /** Idling: at most 0.1 m/s. */
  predicate IsIdle(v: real) {
    v <= 0.1
  }

  predicate IsAccelerating(a: real) {
    a > 0.0
  }

  predicate IsDecelerating(a: real) {
    a < 0.0
  }

  /** Share (in percent) of the samples of a column satisfying `p`. */
  function Percent(s: seq<real>, p: real -> bool): (pct: real)
    requires |s| > 0
    ensures 0.0 <= pct <= 100.0
    ensures pct == 100.0 <==> forall i :: 0 <= i < |s| ==> p(s[i])
    ensures pct == 0.0 <==> forall i :: 0 <= i < |s| ==> !p(s[i])
  {
    CountExtremes(s, p);
    ShareOfCount(Count(s, p), |s|);
    (Count(s, p) as real) * 100.0 / (|s| as real)
  }

  lemma ScaledQuotient(x: real, y: real)
    requires y != 0.0
    ensures x * 100.0 / y == 100.0 * (x / y)
  {
  }

  /** A count of at most n, as a share of n, lies in [0, 100] and hits the
      ends exactly at 0 and n. */
  lemma ShareOfCount(c: nat, n: nat)
    requires c <= n && n > 0
    ensures 0.0 <= (c as real) * 100.0 / (n as real) <= 100.0
    ensures (c as real) * 100.0 / (n as real) == 100.0 <==> c == n
    ensures (c as real) * 100.0 / (n as real) == 0.0 <==> c == 0
  {
    ScaledQuotient(c as real, n as real);
    assert (c as real) / (n as real) <= 1.0;
    assert (c as real) / (n as real) == 1.0 <==> c == n;
    assert (c as real) / (n as real) == 0.0 <==> c == 0;
  }

  /** `idling_mode`: the share of idling samples. */
  function IdlingPercent(speed: seq<real>): (pct: real)
    requires |speed| > 0
    ensures 0.0 <= pct <= 100.0
    ensures pct == 100.0 <==> forall i :: 0 <= i < |speed| ==> speed[i] <= 0.1
    ensures pct == 0.0 <==> forall i :: 0 <= i < |speed| ==> speed[i] > 0.1
  {
    assert (forall i :: 0 <= i < |speed| ==> IsIdle(speed[i]))
       <==> (forall i :: 0 <= i < |speed| ==> speed[i] <= 0.1);
    assert (forall i :: 0 <= i < |speed| ==> !IsIdle(speed[i]))
       <==> (forall i :: 0 <= i < |speed| ==> speed[i] > 0.1);
    Percent(speed, IsIdle)
  }

  /** `acc_mode`: the share of accelerating samples. */
  function AccModePercent(acc: seq<real>): (pct: real)
    requires |acc| > 0
    ensures 0.0 <= pct <= 100.0
    ensures pct == 100.0 <==> forall i :: 0 <= i < |acc| ==> acc[i] > 0.0
    ensures pct == 0.0 <==> forall i :: 0 <= i < |acc| ==> acc[i] <= 0.0
  {
    assert (forall i :: 0 <= i < |acc| ==> IsAccelerating(acc[i]))
       <==> (forall i :: 0 <= i < |acc| ==> acc[i] > 0.0);
    assert (forall i :: 0 <= i < |acc| ==> !IsAccelerating(acc[i]))
       <==> (forall i :: 0 <= i < |acc| ==> acc[i] <= 0.0);
    Percent(acc, IsAccelerating)
  }

  /** `dec_mode`: the share of decelerating samples. */
  function DecModePercent(acc: seq<real>): (pct: real)
    requires |acc| > 0
    ensures 0.0 <= pct <= 100.0
    ensures pct == 100.0 <==> forall i :: 0 <= i < |acc| ==> acc[i] < 0.0
    ensures pct == 0.0 <==> forall i :: 0 <= i < |acc| ==> acc[i] >= 0.0
  {
    assert (forall i :: 0 <= i < |acc| ==> IsDecelerating(acc[i]))
       <==> (forall i :: 0 <= i < |acc| ==> acc[i] < 0.0);
    assert (forall i :: 0 <= i < |acc| ==> !IsDecelerating(acc[i]))
       <==> (forall i :: 0 <= i < |acc| ==> acc[i] >= 0.0);
    Percent(acc, IsDecelerating)
  }

  /** The first acceleration is 0, so accelerating and decelerating samples
      together number at most t - 1, and their shares sum below 100. */
  lemma AccDecSharesBelowWhole(speed: seq<real>)
    requires |speed| > 0
    ensures Count(Accelerations(speed), IsAccelerating) + Count(Accelerations(speed), IsDecelerating)
            <= |speed| - 1
    ensures AccModePercent(Accelerations(speed)) + DecModePercent(Accelerations(speed)) < 100.0
  {
    var acc := Accelerations(speed);
    CountDisjoint(acc, IsAccelerating, IsDecelerating);
    SharesOfDisjointCounts(Count(acc, IsAccelerating) as real, Count(acc, IsDecelerating) as real,
                           |speed| as real);
  }

  lemma SharesOfDisjointCounts(a: real, b: real, n: real)
    requires n > 0.0 && a >= 0.0 && b >= 0.0 && a + b <= n - 1.0
    ensures a * 100.0 / n + b * 100.0 / n < 100.0
  {
    assert a * 100.0 / n + b * 100.0 / n == (a + b) * 100.0 / n;
    assert (a + b) * 100.0 / n <= (n - 1.0) * 100.0 / n;
    assert (n - 1.0) * 100.0 / n == 100.0 - 100.0 / n;
  }

  /** `acc_avg`: the mean of the positive accelerations, defined when there
      is one: the sum of the column with every non-positive entry zeroed,
      over the number of positive entries. It is positive and lies between
      the smallest and the largest positive acceleration. */
  function AccAvg(acc: seq<real>): (mean: real)
    requires Count(acc, IsAccelerating) > 0
    ensures mean == Sum(Masked(acc, IsAccelerating)) / (Count(acc, IsAccelerating) as real)
    ensures mean > 0.0
    ensures exists i :: 0 <= i < |acc| && acc[i] > 0.0 && acc[i] <= mean
    ensures exists j :: 0 <= j < |acc| && acc[j] > 0.0 && mean <= acc[j]
  {
    SumMasked(acc, IsAccelerating);
    SumPositive(Filter(acc, IsAccelerating));
    SelectionMeanBounds(acc, IsAccelerating);
    Sum(Filter(acc, IsAccelerating)) / (Count(acc, IsAccelerating) as real)
  }

  /** `dec_avg`: the mean of the negative accelerations: the sum of the
      column with every non-negative entry zeroed, over the number of
      negative entries. It is negative and lies between the strongest and
      the weakest deceleration. */
  function DecAvg(acc: seq<real>): (mean: real)
    requires Count(acc, IsDecelerating) > 0
    ensures mean == Sum(Masked(acc, IsDecelerating)) / (Count(acc, IsDecelerating) as real)
    ensures mean < 0.0
    ensures exists i :: 0 <= i < |acc| && acc[i] < 0.0 && acc[i] <= mean
    ensures exists j :: 0 <= j < |acc| && acc[j] < 0.0 && mean <= acc[j]
  {
    SumMasked(acc, IsDecelerating);
    SumNegative(Filter(acc, IsDecelerating));
    SelectionMeanBounds(acc, IsDecelerating);
    Sum(Filter(acc, IsDecelerating)) / (Count(acc, IsDecelerating) as real)
  }

  /** Ten samples at a steady 10 m/s: no accelerating or decelerating
      samples, 0.1 km travelled at 36 km/h. */
  lemma SteadyCycle()
    ensures var speed := seq(10, _ => 10.0);
            && AccModePercent(Accelerations(speed)) == 0.0
            && DecModePercent(Accelerations(speed)) == 0.0
            && Distance(speed) == 0.1
            && AverageSpeed(speed) == 36.0
  {
    var speed := seq(10, _ => 10.0);
    var acc := Accelerations(speed);
    assert forall i :: 0 <= i < |speed| ==> speed[i] == 10.0;
    forall i | 0 <= i < |acc|
      ensures acc[i] == 0.0
    {
      if i > 0 {
        assert acc[i] == speed[i] - speed[i - 1];
      }
    }
    SumConstant(speed, 10.0);
    CountExtremes(acc, IsAccelerating);
    CountExtremes(acc, IsDecelerating);
  }
}

=== FILE: units.dfy ===
/** Unit conversions used by the operating-mode classifier
    (`mps_to_mph` and `mps2_to_mph_per_sec`). */
module Units {

  /** Miles per hour in one metre per second, as the code rounds it. */
  const MphPerMps: real := 2.23694

  /** Speed in metres per second to miles per hour. */
  function MpsToMph(mps: real): (mph: real)
    ensures mph / MphPerMps == mps
    ensures mph > 0.0 <==> mps > 0.0
    ensures mph == 0.0 <==> mps == 0.0
  {
    MphPerMps * mps
  }

  /** Acceleration in m/s^2 to mph per second: the same scaling as speeds. */
  function Mps2ToMphPerSec(mps2: real): (r: real)
    ensures r == MpsToMph(mps2)
  {
    MphPerMps * mps2
  }

  /** Both conversions are strictly increasing, so they preserve order. */
  lemma ConversionPreservesOrder(x: real, y: real)
    ensures x < y <==> MpsToMph(x) < MpsToMph(y)
    ensures x <= y <==> Mps2ToMphPerSec(x) <= Mps2ToMphPerSec(y)
  {
  }
}

=== FILE: vehicle.dfy ===
/** The gasoline vehicle (`Car` and `GV` constructors): the per-sample
    pipeline speed -> acceleration -> tractive power -> VSP -> operating
    mode -> emission rates, evaluated eagerly over the whole cycle. */
module Vehicle {
  import opened Results
  import opened Physics
  import opened OperatingMode
  import opened EmissionRates
  import opened Kinematics

  /** The vehicle's physical configuration: mass in kg, frontal area in m^2,
      rolling-resistance coefficient, air density in kg/m^3, drag
      coefficient, and the well-to-tank CO2 factor in g/MJ. */
  datatype Config = Config(mass: real, frontalArea: real, muRr: real, airDensity: real,
                           cd: real, wellToTankFactor: real)

  /** One row of the enriched driving cycle. */
  datatype Sample = Sample(speed: real, acc: real, tractivePower: real, vsp: real,
                           mode: int, rates: Rates)

  /** A constructed gasoline vehicle: its configuration, vehicle class, VSP
      coefficients, selected rate-table partition and enriched cycle. */
  datatype Gasoline = Gasoline(config: Config, vehicleType: string, coefficients: Coefficients,
                               table: RateTable, samples: seq<Sample>)

  /** Construction fails on an empty cycle (the constructor reads the
      vehicle type from the first row, `df.vehicle_type[0]`) or on the first
      sample whose mode lacks a rate. */
  datatype BuildError = EmptyCycle | RateMissing(sample: nat, mode: int, pollutant: Pollutant)

  function MassTons(config: Config): real {
    config.mass / 1000.0
  }

  function SampleVsp(config: Config, k: Coefficients, speed: seq<real>, acc: seq<real>, i: nat): real
    requires k.f != 0.0 && |acc| == |speed| && i < |speed|
  {
    Vsp(speed[i], acc[i], MassTons(config), k)
  }

  /** The mode of sample `i`, from its speed, VSP and acceleration and the
      zero-padded accelerations one and two samples back. */
  function SampleMode(config: Config, k: Coefficients, speed: seq<real>, acc: seq<real>, i: nat): int
    requires k.f != 0.0 && |acc| == |speed| && i < |speed|
  {
    OpMode(SampleVsp(config, k, speed, acc, i), speed[i], acc[i], Lookback(acc, i, 1), Lookback(acc, i, 2))
  }

  /** All derived columns of row `i`, or the failed rate lookup. */
  function SampleAt(config: Config, k: Coefficients, table: RateTable,
                    speed: seq<real>, acc: seq<real>, i: nat): (r: Result<Sample, BuildError>)
    requires k.f != 0.0 && |acc| == |speed| && i < |speed|
    ensures r.Ok? <==> Covers(table, SampleMode(config, k, speed, acc, i))
  {
    var mode := SampleMode(config, k, speed, acc, i);
    match LookupRates(table, mode)
    case Err(e) => Err(RateMissing(i, e.mode, e.pollutant))
    case Ok(rates) =>
      Ok(Sample(speed[i], acc[i],
                TractivePower(speed[i], acc[i], config.mass, config.frontalArea, config.muRr,
                              config.airDensity, config.cd),
                SampleVsp(config, k, speed, acc, i), mode, rates))
  }

  /** The rows from index `from` on, stopping at the first failed lookup as
      the code's loop does. */
  function SamplesFrom(config: Config, k: Coefficients, table: RateTable,
                       speed: seq<real>, acc: seq<real>, from: nat): (r: Result<seq<Sample>, BuildError>)
    requires k.f != 0.0 && |acc| == |speed| && from <= |speed|
    decreases |speed| - from
    ensures r.Ok? ==> |r.value| == |speed| - from
    ensures r.Ok? ==> forall j :: 0 <= j < |r.value| ==>
                        SampleAt(config, k, table, speed, acc, from + j) == Ok(r.value[j])
    ensures r.Ok? <==> forall i :: from <= i < |speed| ==> Covers(table, SampleMode(config, k, speed, acc, i))
    ensures r.Err? ==> r.error.RateMissing? && from <= r.error.sample < |speed|
                       && !Covers(table, SampleMode(config, k, speed, acc, r.error.sample))
                       && (forall i :: from <= i < r.error.sample ==> Covers(table, SampleMode(config, k, speed, acc, i)))
  {
    if from == |speed| then Ok([])
    else
      match SampleAt(config, k, table, speed, acc, from)
      case Err(e) => Err(e)
      case Ok(s) =>
        match SamplesFrom(config, k, table, speed, acc, from + 1)
        case Err(e) => Err(e)
        case Ok(rest) => Ok([s] + rest)
  }

  function SpeedColumn(samples: seq<Sample>): (speed: seq<real>)
    ensures |speed| == |samples|
    ensures forall i :: 0 <= i < |samples| ==> speed[i] == samples[i].speed
  {
    if |samples| == 0 then [] else [samples[0].speed] + SpeedColumn(samples[1..])
  }

  /** Row `i` holds the derived columns of the cycle `speed`. */
  ghost predicate RowMatches(s: Sample, config: Config, k: Coefficients, table: RateTable,
                             speed: seq<real>, i: nat)
    requires k.f != 0.0 && i < |speed|
  {
    var acc := Accelerations(speed);
    && s.speed == speed[i]
    && s.acc == acc[i]
    && s.tractivePower == TractivePower(speed[i], acc[i], config.mass, config.frontalArea,
                                        config.muRr, config.airDensity, config.cd)
    && s.vsp == Vsp(speed[i], acc[i], MassTons(config), k)
    && s.mode == OpMode(s.vsp, speed[i], acc[i], Lookback(acc, i, 1), Lookback(acc, i, 2))
    && Covers(table, s.mode)
    && (forall p: Pollutant :: RateOf(s.rates, p) == table[(s.mode, p)])
  }

  /** The invariant of a constructed vehicle. */
  ghost predicate Valid(g: Gasoline) {
    && |g.samples| > 0
    && g.coefficients == VspCoeff(g.vehicleType)
    && (forall i :: 0 <= i < |g.samples| ==>
          RowMatches(g.samples[i], g.config, g.coefficients, g.table, SpeedColumn(g.samples), i))
  }

  /** `GV(...)`: build the enriched cycle for a vehicle class and a speed
      column in m/s. */
  function Build(config: Config, vehicleType: string, db: RateDb, speed: seq<real>): (r: Result<Gasoline, BuildError>)
    ensures r == Err(EmptyCycle) <==> |speed| == 0
    ensures r.Ok? ==> Valid(r.value) && SpeedColumn(r.value.samples) == speed
    ensures r.Ok? ==> r.value.table == SelectTable(db, vehicleType)
    ensures r.Ok? ==> r.value.config == config && r.value.vehicleType == vehicleType
                      && r.value.coefficients == VspCoeff(vehicleType)
    ensures r.Err? && |speed| > 0 ==> r.error.RateMissing? && r.error.sample < |speed|
    ensures r.Err? && |speed| > 0 ==>
              !Covers(SelectTable(db, vehicleType),
                      SampleMode(config, VspCoeff(vehicleType), speed, Accelerations(speed), r.error.sample))
    ensures |speed| > 0
            && (forall i :: 0 <= i < |speed| ==>
                  Covers(SelectTable(db, vehicleType),
                         SampleMode(config, VspCoeff(vehicleType), speed, Accelerations(speed), i)))
            ==> r.Ok?
  {
    if |speed| == 0 then Err(EmptyCycle)
    else
      var k := VspCoeff(vehicleType);
      var table := SelectTable(db, vehicleType);
      var acc := Accelerations(speed);
      match SamplesFrom(config, k, table, speed, acc, 0)
      case Err(e) => Err(e)
      case Ok(samples) =>
        BuiltRowsMatch(config, k, table, speed, samples);
        Ok(Gasoline(config, vehicleType, k, table, samples))
  }

  lemma BuiltRowsMatch(config: Config, k: Coefficients, table: RateTable, speed: seq<real>, samples: seq<Sample>)
    requires k.f != 0.0 && |speed| > 0
    requires SamplesFrom(config, k, table, speed, Accelerations(speed), 0) == Ok(samples)
    ensures SpeedColumn(samples) == speed
    ensures forall i :: 0 <= i < |samples| ==> RowMatches(samples[i], config, k, table, speed, i)
  {
    var acc := Accelerations(speed);
    forall i | 0 <= i < |samples|
      ensures RowMatches(samples[i], config, k, table, speed, i)
    {
      assert SampleAt(config, k, table, speed, acc, i) == Ok(samples[i]);
    }
  }

  /** With a complete table, construction fails only on an empty cycle. */
  lemma CompleteTableBuilds(config: Config, vehicleType: string, db: RateDb, speed: seq<real>)
    requires |speed| > 0 && Complete(SelectTable(db, vehicleType))
    ensures Build(config, vehicleType, db, speed).Ok?
  {
    var k := VspCoeff(vehicleType);
    var table := SelectTable(db, vehicleType);
    var acc := Accelerations(speed);
    forall i | 0 <= i < |speed|
      ensures Covers(table, SampleMode(config, k, speed, acc, i))
    {
      assert SampleMode(config, k, speed, acc, i) in ModeCodes;
    }
  }

  /** Each row carries the table's six rates for its mode. */
  lemma RowRates(g: Gasoline, i: nat)
    requires Valid(g) && i < |g.samples|
    ensures Covers(g.table, g.samples[i].mode)
    ensures forall p: Pollutant :: RateOf(g.samples[i].rates, p) == g.table[(g.samples[i].mode, p)]
  {
    assert RowMatches(g.samples[i], g.config, g.coefficients, g.table, SpeedColumn(g.samples), i);
  }

  /** Two rows with the same operating mode carry the same six rates. */
  lemma SameModeSameRates(g: Gasoline, i: nat, j: nat)
    requires Valid(g) && i < |g.samples| && j < |g.samples|
    requires g.samples[i].mode == g.samples[j].mode
    ensures g.samples[i].rates == g.samples[j].rates
  {
    var speed := SpeedColumn(g.samples);
    assert RowMatches(g.samples[i], g.config, g.coefficients, g.table, speed, i);
    assert RowMatches(g.samples[j], g.config, g.coefficients, g.table, speed, j);
    var ri, rj := g.samples[i].rates, g.samples[j].rates;
    assert RateOf(ri, CO2) == RateOf(rj, CO2) && RateOf(ri, CO) == RateOf(rj, CO);
    assert RateOf(ri, NOx) == RateOf(rj, NOx) && RateOf(ri, HC) == RateOf(rj, HC);
    assert RateOf(ri, PM25ElementalCarbon) == RateOf(rj, PM25ElementalCarbon);
    assert RateOf(ri, PM25OrganicCarbon) == RateOf(rj, PM25OrganicCarbon);
  }

  /** Row `i` is a function of the first i + 1 speeds only: later samples
      never influence it. */
  lemma RowsAreCausal(config: Config, k: Coefficients, table: RateTable,
                      speed1: seq<real>, speed2: seq<real>, i: nat)
    requires k.f != 0.0 && i < |speed1| && i < |speed2|
    requires speed1[..i + 1] == speed2[..i + 1]
    ensures SampleAt(config, k, table, speed1, Accelerations(speed1), i)
            == SampleAt(config, k, table, speed2, Accelerations(speed2), i)
  {
    var acc1, acc2 := Accelerations(speed1), Accelerations(speed2);
    forall j | 0 <= j <= i
      ensures speed1[j] == speed2[j] && acc1[j] == acc2[j]
    {
      assert speed1[j] == speed1[..i + 1][j];
      assert speed2[j] == speed2[..i + 1][j];
      if j > 0 {
        assert speed1[j - 1] == speed1[..i + 1][j - 1];
        assert speed2[j - 1] == speed2[..i + 1][j - 1];
      }
    }
  }

  /** The first row is never in the braking mode: its acceleration is 0 and
      the history before it is zero-padded. */
  lemma FirstRowNeverBraking(g: Gasoline)
    requires Valid(g)
    ensures g.samples[0].acc == 0.0
    ensures g.samples[0].mode != 0
  {
    var speed := SpeedColumn(g.samples);
    assert RowMatches(g.samples[0], g.config, g.coefficients, g.table, speed, 0);
    ClassifierMatchesBinTables(g.samples[0].vsp, speed[0], 0.0, 0.0, 0.0);
  }

  /** A row whose acceleration reaches -2 mph/s is in the braking mode,
      whatever its speed, VSP or history. */
  lemma HardBrakingRowIsModeZero(g: Gasoline, i: nat)
    requires Valid(g) && i < |g.samples|
    ensures Units.MpsToMph(g.samples[i].acc) <= -2.0 ==> g.samples[i].mode == 0
  {
    assert RowMatches(g.samples[i], g.config, g.coefficients, g.table, SpeedColumn(g.samples), i);
  }

  /** A light commercial truck is looked up in its own rate partition but
      is given the passenger-truck VSP coefficients. */
  lemma LightCommercialTruckPairing(config: Config, db: RateDb, speed: seq<real>)
    requires Build(config, "Light commercial truck", db, speed).Ok?
    ensures Build(config, "Light commercial truck", db, speed).value.table == db.lightCommercialTruck
    ensures Build(config, "Light commercial truck", db, speed).value.coefficients == PassengerTruckCoefficients
  {
  }

  /** A cycle standing still throughout is idle (mode 1) at every row. */
  lemma StandingCycleIsIdle(g: Gasoline)
    requires Valid(g)
    requires forall i :: 0 <= i < |g.samples| ==> g.samples[i].speed == 0.0
    ensures forall i :: 0 <= i < |g.samples| ==> g.samples[i].mode == 1
  {
    var speed := SpeedColumn(g.samples);
    var acc := Accelerations(speed);
    assert forall i :: 0 <= i < |acc| ==> acc[i] == 0.0 by {
      forall i | 0 < i < |acc|
        ensures acc[i] == 0.0
      {
        assert speed[i] == 0.0 && speed[i - 1] == 0.0;
      }
    }
    forall i | 0 <= i < |g.samples|
      ensures g.samples[i].mode == 1
    {
      assert RowMatches(g.samples[i], g.config, g.coefficients, g.table, speed, i);
      StandingStillIsIdle(g.samples[i].vsp, Lookback(acc, i, 1));
    }
  }

  /** A standing start followed by a jump to 20 m/s (about 45 mph): the
      second row accelerates at 20 m/s^2, is not braking and lands in the
      25-50 mph band with non-negative VSP. */
  lemma LaunchRowAccelerates(g: Gasoline)
    requires Valid(g) && g.config.mass > 0.0
    requires SpeedColumn(g.samples) == [0.0, 20.0]
    ensures g.samples[1].acc == 20.0
    ensures 22 <= g.samples[1].mode <= 30
  {
    var speed := SpeedColumn(g.samples);
    assert RowMatches(g.samples[1], g.config, g.coefficients, g.table, speed, 1);
    var k := g.coefficients;
    VspPositiveWhenNotDecelerating(20.0, 20.0, MassTons(g.config), k);
    ClassifierMatchesBinTables(g.samples[1].vsp, 20.0, 20.0, 0.0, 0.0);
  }

  /** The stored acceleration column is the first difference of the stored
      speed column, starting from 0. */
  lemma StoredAccelerations(g: Gasoline)
    requires Valid(g)
    ensures forall i :: 0 <= i < |g.samples| ==> g.samples[i].acc == Accelerations(SpeedColumn(g.samples))[i]
  {
    var speed := SpeedColumn(g.samples);
    forall i | 0 <= i < |g.samples|
      ensures g.samples[i].acc == Accelerations(speed)[i]
    {
      assert RowMatches(g.samples[i], g.config, g.coefficients, g.table, speed, i);
    }
  }
}
